=== FILE: README.md ===
# Schema field: dispatch and composition

A Dafny model of the schema field of a JSON-schema form renderer (a react-jsonschema-form
fork). One field at a time, the schema field does five things:

1. It resolves the field's schema through `retrieveSchema`.
2. It picks a renderer: a function `ui:field` override, then a `ui:field` name registered
   in the registry, then the type-to-renderer table, and finally the "unsupported field"
   placeholder.
3. It derives the display options: the `displayLabel` cascade, the label and description
   priorities, the help text, the hidden bypass and the class list.
4. It splits the error schema into the field's own `__errors` and the part for its
   children.
5. It lays everything out with the default field template.

A change gate (`shouldComponentUpdate`) decides whether new props need a new render.

The modules follow the structure of the source file:

- `JsValue` (`js_value.dfy`): the JavaScript values the field reads and the operations it
  applies to them. These are truthiness, `||` chains, template-literal text, `join`,
  `trim` (with the whitespace set of ECMA-262) and reading `length`.
- `FieldProps` (`props.dfy`): the props, the registry, and the utility functions whose
  source is not part of this model, taken as parameters.
- `Dispatch` (`dispatch.dfy`): `COMPONENT_TYPES` and `getFieldComponent`.
- `DisplayOptions` (`display_options.dfy`): `displayLabel`, the label, the description and
  the class list.
- `ErrorProjection` (`error_projection.dfy`): the own/child split of the error schema and
  `containsErrors`.
- `Template` (`template.dfy`): the element tree, `Help`, `ErrorList` and
  `DefaultTemplate`. It also has an evaluation step, `Mount`, that runs the two inner
  components the way React does: lazily, and only where they appear in the output.
- `SchemaField` (`schema_field.dfy`): the render function, the template props, the body
  element, the change gate, and three worked cases: a titled string field, an object whose
  only errors belong to a child, and a hidden field.

Where the documented behaviour and the code differ, the model follows the code:

- The flags `disabled`, `readOnly` and `autoFocus` are `Boolean(prop || directive)`.
  An explicit `false` prop does not override a truthy overlay directive.
- When no label is displayed, the template still puts an empty `<div />` in the label's
  place.
- The description slot is gated by `displayLabel` alone. The slot always holds a
  `DescriptionField` element, which is truthy, so it is there even when the description
  text is empty.
- A schema of type `"null"` has no entry in `COMPONENT_TYPES`, so it gets the unsupported
  placeholder ("Unknown field type null").

## Model

| member | source | states |
|---|---|---|
| JsValue.OrChain | src/components/fields/SchemaField.js:208-213 | `a \|\| b \|\| ...` yields the first truthy operand, or the last operand when none is truthy. The result is truthy exactly when some operand is. |
| JsValue.Trim | src/components/fields/SchemaField.js:217 | The trimmed text is no longer than the input, and it neither starts nor ends with a whitespace character. |
| JsValue.TrimCutsOnlyWhitespace | src/components/fields/SchemaField.js:217 | `trim` returns a slice of its input, and everything it cuts from either end is whitespace. |
| JsValue.TrimIgnoresTrailingWhitespace | src/components/fields/SchemaField.js:217 | Appending a whitespace character does not change the trimmed result. |
| JsValue.JoinTwo | src/components/fields/SchemaField.js:217 | Joining two values gives the first text, the separator, then the second text. A nullish value contributes "". |
| JsValue.LengthOf | src/components/fields/SchemaField.js:58-62 | Reading `length` throws exactly for `undefined` and `null`. An array reports its number of items and a string its number of characters. |
| Dispatch.ComponentName | src/components/fields/SchemaField.js:15-32 | The table lookup uses the type's text as the key. It yields the renderer name the table gives for that key exactly when the text is one of the six table keys, and `undefined` otherwise. |
| Dispatch.GetFieldComponent | src/components/fields/SchemaField.js:24-44 | Every schema gets a renderer. A chosen component is either the function override or a registry entry. The placeholder comes only when no override applies, and it carries the schema, the identity and "Unknown field type <type>". |
| Dispatch.DispatchOrder | src/components/fields/SchemaField.js:24-34 | Precedence: a function `ui:field` wins first, a registered `ui:field` name second, and only then does the type table decide. |
| Dispatch.UnsupportedExactly | src/components/fields/SchemaField.js:32-43 | The placeholder is chosen if and only if no override applies and the registry has no entry under the looked-up name. |
| Dispatch.StandardDispatch | src/components/fields/SchemaField.js:15-43 | With the five standard renderers registered, no entry named `undefined` and no override: a type in the table gets its renderer, and every other type (a missing one included) gets the placeholder naming it. |
| Dispatch.IntegerAndNumberShareRenderer | src/components/fields/SchemaField.js:18-19 | `integer` and `number` schemas get the same renderer, `NumberField`. |
| Dispatch.NullTypeUnsupported | src/components/fields/SchemaField.js:15-43 | A `"null"` type has no table entry, so it gets the placeholder with reason "Unknown field type null". |
| Dispatch.MissingTypeUnsupported | src/components/fields/SchemaField.js:32-43 | A schema without a type looks up the key "undefined" and gets the placeholder with reason "Unknown field type undefined". |
| DisplayOptions.DisplayLabel | src/components/fields/SchemaField.js:173-188 | The cascade as a decision table. A truthy `ui:field` hides the label. Otherwise an object never shows one, and a boolean without a widget override never shows one. An array shows one exactly when it is a multi-select or a file array. Every other type uses the `label` option, which defaults to true. The result is never `undefined`. |
| DisplayOptions.DisplayLabelHelpersOnlyForArrays | src/components/fields/SchemaField.js:175-185 | The multi-select and file-array tests change nothing for non-array types. A boolean with a widget override keeps the `label` option. |
| DisplayOptions.FieldLabel | src/components/fields/SchemaField.js:208-209 | The label is the overlay title, else the raw schema's title, else the resolved schema's title, else the name. Each step applies only when the ones before it are falsy. |
| DisplayOptions.FieldLabelIsOrChain | src/components/fields/SchemaField.js:208-209 | The label equals the general left-to-right `\|\|` chain of its four operands. |
| DisplayOptions.FieldDescription | src/components/fields/SchemaField.js:210-213 | The description is the overlay description, else the raw schema's description, else the resolved schema's description. |
| DisplayOptions.FieldDescriptionIsOrChain | src/components/fields/SchemaField.js:210-213 | The description equals the general `\|\|` chain of its three operands. |
| DisplayOptions.ClassNames | src/components/fields/SchemaField.js:217 | The field's class list. Its contract is stated by the partner lemmas: it is the trimmed `join(" ")` of the two entries (`ClassNamesIsTrimmedJoin`), starts with `field-` (`ClassNamesStartWithField`), and has the exact nullish and plain-string forms (`ClassNamesJoin`). |
| DisplayOptions.ClassNamesIsTrimmedJoin | src/components/fields/SchemaField.js:217 | The class list is the trimmed `join(" ")` of `field-<type>` and the overlay's `classNames`. |
| DisplayOptions.ClassNamesStartWithField | src/components/fields/SchemaField.js:217 | The class list always begins with `field-`. |
| DisplayOptions.ClassNamesJoin | src/components/fields/SchemaField.js:217 | Without overlay classes, the list is the trimmed `field-<type>`. With a non-empty, unpadded class string, it is exactly `field-<type> <classes>`. |
| ErrorProjection.SplitErrors | src/components/fields/SchemaField.js:190 | The own errors are the `__errors` entry, or `undefined` when absent. The child part keeps every other key with its value unchanged. |
| ErrorProjection.SplitConserves | src/components/fields/SchemaField.js:190 | The split loses nothing. Putting `__errors` back rebuilds the error schema, and `__errors` never reaches the children. |
| ErrorProjection.ContainsErrors | src/components/fields/SchemaField.js:231 | The error flag implies truthy errors, and it is false for nullish errors. For an array it is true exactly when the array is non-empty; for a string, exactly when the string is non-empty. |
| Template.Help | src/components/fields/SchemaField.js:46-56 | Falsy help gives an empty `<div />`, and only falsy help does. String help gives a help paragraph; any other help gives a help block around it. |
| Template.ErrorList | src/components/fields/SchemaField.js:58-82 | Absent errors default to `[]`. It gives `<div />` exactly for length 0. A non-empty array gives one bullet per entry. It throws exactly for the other values whose length is not 0, `null` included. |
| Template.ErrorChromeMatchesContainsErrors | src/components/fields/SchemaField.js:58-82 | For absent or array errors, the error list never throws. It shows error chrome exactly when the error flag is set. |
| Template.DefaultTemplate | src/components/fields/SchemaField.js:84-143 | A hidden field is its body. Otherwise the output is a form field with, in order: the label or `<div />`, the description gated by `displayLabel`, the body, the errors and the help. An undefined `displayLabel` shows the label, and an undefined `required` becomes `false` on the form field. |
| Template.HiddenIgnoresChrome | src/components/fields/SchemaField.js:98-100 | Two hidden template inputs give the same output for the same body, whatever their chrome. |
| Template.MountedTemplate | src/components/fields/SchemaField.js:98-112 | For any help and error-list elements: a hidden output evaluates to the body. A shown field whose help is falsy (`null`, `false`, `0` and `""` included) and whose errors are absent or `[]` evaluates both slots to `<div />`. |
| SchemaField.Flag | src/components/fields/SchemaField.js:164-166 | A flag is the truth value of the JS `prop \|\| directive`. A truthy overlay directive turns it on whatever the prop says. `FieldBody` states the three flags handed to the body, and `TemplatePropsDerived` states `disabled` and `readOnly` handed to the template. |
| SchemaField.FieldBody | src/components/fields/SchemaField.js:193-204 | The body is the dispatched renderer, given the resolved schema, an overlay with `classNames` cleared, the three flags as booleans, and the registry's form context. |
| SchemaField.FieldBodyHandsDown | src/components/fields/SchemaField.js:190-204 | The body gets the overlay unchanged apart from `classNames`, and the error schema without `__errors` and otherwise untouched. Every other prop is passed on as received. |
| SchemaField.FieldTemplateProps | src/components/fields/SchemaField.js:219-245 | The props object handed to the template. Its partner lemma `TemplatePropsDerived` states the entries the template reads: help, errors, error flag, id, label default, class list, the description element (registry `DescriptionField`, element id, text, form context), flags, hidden and required. `RenderComposition` states where the id, class list, required flag, description element, errors and help end up in the output. |
| SchemaField.TemplatePropsDerived | src/components/fields/SchemaField.js:206-245 | The template props: raw help only when the help is text; the error list and the error flag both built from the own errors; `displayLabel` always defined; the field's class list, which starts with `field-`; the description element drawn by the registry's `DescriptionField` with the description text, the element id `<id>__description` and the registry's form context; the two flags, the hidden test and `required` as derived. |
| SchemaField.SchemaFieldRender | src/components/fields/SchemaField.js:145-247 | A throw from `retrieveSchema` propagates, and the render throws only then. An empty resolved schema renders `<div />`. Otherwise the template lays out the body with the derived props. |
| SchemaField.RenderHiddenIsBody | src/components/fields/SchemaField.js:216-247 | A `ui:widget: "hidden"` field renders exactly its body, and evaluating that output cannot fail. |
| SchemaField.RenderComposition | src/components/fields/SchemaField.js:193-247 | A shown field renders, in order: the label exactly when `displayLabel` is truthy, the description slot exactly when `displayLabel` is truthy, the body, the error list of its own errors, and the help. The form field carries the field id, the class list, `required` (`false` when undefined) and the error flag of its own errors. The description element is the registry's `DescriptionField`, given the description text, the registry's form context and the id `<id>__description`. |
| SchemaField.ShouldComponentUpdate | src/components/fields/SchemaField.js:251-258 | The gate re-renders if and only if some prop other than `idSchema` differs. |
| SchemaField.ChangeGateIgnoresIdentity | src/components/fields/SchemaField.js:251-258 | A change of identity alone never re-renders, identical props never re-render, and the gate is symmetric. |
| SchemaField.TitledStringField | src/components/fields/SchemaField.js:161-247 | A titled string schema with an empty overlay and no errors renders a form field labelled with its title, not in the error state. |
| SchemaField.TitledStringFieldParts | src/components/fields/SchemaField.js:161-247 | For a string schema with an empty overlay and no errors, the registered `StringField` renderer draws the body. The error list and help are those of no errors and no help. |
| SchemaField.ObjectWithChildErrors | src/components/fields/SchemaField.js:173-231 | An object schema whose only errors belong to a child shows no label and is not in the error state, with or without a `ui:field` override. |
| SchemaField.ObjectChildErrorsHandedDown | src/components/fields/SchemaField.js:190-201 | The child's error schema reaches the body unchanged. |
| SchemaField.HiddenOverlayIsBody | src/components/fields/SchemaField.js:216-247 | A hidden overlay renders the body, and evaluating it cannot fail, even with a `null` error list that would throw if it were shown. |

## Left out

- React itself is not modelled. Elements are plain data, and only `Help` and `ErrorList` are evaluated.
- PropTypes checks and the inline styles of the error list are not modelled. They change no behaviour the field exposes.
- A custom `FieldTemplate` from the registry is not modelled. Only `DefaultTemplate` is, since the template's behaviour is what the properties are about.
- The `getDefaultRegistry()` fallback for a missing registry is not modelled. The registry is always supplied.
- `retrieveSchema`, `getUiOptions`, `isMultiSelect` and `isFilesArray` are parameters. Their source is not part of this model.
- `deepEquals` is modelled as structural equality. Its source is not part of this model, including how it treats function values.
- The field renderers themselves, `UnsupportedField` and `DescriptionField`, are not modelled. Their elements are final values, so a missing `DescriptionField` does not fail here.
- The operator `in` and property reads such as `COMPONENT_TYPES[type]` see only the object's own keys. Inherited names such as `"toString"` or `"constructor"` are not found and read as `undefined`, because prototype chains are not modelled.
- Numbers are integers. NaN, fractions and floating-point text are not modelled.
- Objects in `length` or in text conversion have no custom `map`, `toString` or `length` getter. An object's `length` is its own `"length"` key, and its text is `[object Object]`.
- ErrorProjection.ContainsErrors: `length > 0` is decided for numbers and booleans only. Other `length` values count as not positive, because JavaScript's coercion of strings and objects in comparisons is not modelled.
- Template.MountedTemplate: the description slot's evaluation is taken as a premise, because `DescriptionField` is not modelled.
- JsValue.LengthOf: a string's `length` is its number of Unicode code points, while JavaScript counts UTF-16 code units. A character outside the Basic Multilingual Plane counts 1 here and 2 in JavaScript. The field only compares the length of its errors with 0, and that comparison comes out the same either way.
- `null` for `schema`, `uiSchema`, `errorSchema` or `idSchema` is not modelled. These props are typed as objects. React's `defaultProps` replace only `undefined`, so in the source a `null` overlay throws at `uiSchema["ui:field"]`. A `null` error schema throws at the `__errors` destructuring, and a `null` identity throws at `idSchema.$id`. Those throw paths are left out.
- `src/components/fields/index.js` and `src/components/ErrorList.js` are not part of this model. They are the registry's list of renderers and the form-level error list.
- The change gate blanks `idSchema` with an empty object instead of `undefined`. This changes nothing, because both sides are blanked the same way.
- The `Form.Field` attributes of the UI kit are not modelled. Only `id`, `className`, `required` and `error` are kept.

=== FILE: dispatch.dfy ===
/**
 Field dispatch: choosing the renderer for a resolved schema from an explicit
 `ui:field` override, the registry, and the type-to-renderer table, falling back to
 an "unsupported field" placeholder that names the unknown type.
 */
module Dispatch {
  import opened JsValue

  /** The table from schema type to renderer name. There is no entry for `"null"`. */
  const ComponentTypes: map<string, string> := map[
    "array" := "ArrayField",
    "boolean" := "BooleanField",
    "integer" := "NumberField",
    "number" := "NumberField",
    "object" := "ObjectField",
    "string" := "StringField"]

  /** The renderer chosen for a field: a component to call, or the unsupported-field
      placeholder with the schema, identity schema and reason it is given. */
  datatype Handle =
    | Use(component: FnRef)
    | Unsupported(schema: JsObject, idSchema: JsObject, reason: string)

  /** `COMPONENT_TYPES[schemaType]`: the lookup key is the type's text, so an array
      type such as `["string"]` reads the same entry as `"string"`. */
  function ComponentName(schemaType: Value): (r: Value)
    ensures r == Undefined || (r.Str? && r.s in ComponentTypes.Values)
    ensures r != Undefined <==> JsString(schemaType) in ComponentTypes
    ensures JsString(schemaType) in ComponentTypes ==> r == Str(ComponentTypes[JsString(schemaType)])
  {
    var key := JsString(schemaType);
    if key in ComponentTypes then Str(ComponentTypes[key]) else Undefined
  }

  /** The text of an unknown type in the placeholder's reason. */
  function UnknownTypeReason(schemaType: Value): string {
    "Unknown field type " + JsString(schemaType)
  }

  /** The `ui:field` value is a string naming a registry entry. */
  predicate NamesRegistered(field: Value, fields: map<string, FnRef>) {
    field.Str? && field.s in fields
  }

  /** Neither kind of `ui:field` override applies, so the type table decides. */
  predicate NoOverride(uiSchema: JsObject, fields: map<string, FnRef>) {
    var field := Get(uiSchema, "ui:field");
    !field.Fn? && !NamesRegistered(field, fields)
  }

  /** The renderer for `schema`: a function `ui:field` as given; else a string `ui:field`
      that names a registry entry; else the registry entry the type table names (the
      operator `in` turns a missing name into the key `"undefined"`); else the
      unsupported-field placeholder. Every schema gets a renderer. */
  function GetFieldComponent(schema: JsObject, uiSchema: JsObject, idSchema: JsObject,
                             fields: map<string, FnRef>): (h: Handle)
    ensures h.Use? ==> Get(uiSchema, "ui:field") == Fn(h.component) || h.component in fields.Values
    ensures h.Unsupported? ==>
              && NoOverride(uiSchema, fields)
              && h == Unsupported(schema, idSchema, UnknownTypeReason(Get(schema, "type")))
  {
    var field := Get(uiSchema, "ui:field");
    if field.Fn? then Use(field.f)
    else if NamesRegistered(field, fields) then Use(fields[field.s])
    else
      var componentName := JsString(ComponentName(Get(schema, "type")));
      if componentName in fields then Use(fields[componentName])
      else Unsupported(schema, idSchema, UnknownTypeReason(Get(schema, "type")))
  }

  /** The order of precedence: a function override wins over everything, a registered
      name wins over the type, and only then does the type table decide. */
  lemma DispatchOrder(schema: JsObject, uiSchema: JsObject, idSchema: JsObject,
                      fields: map<string, FnRef>)
    ensures Get(uiSchema, "ui:field").Fn? ==>
              GetFieldComponent(schema, uiSchema, idSchema, fields) == Use(Get(uiSchema, "ui:field").f)
    ensures NamesRegistered(Get(uiSchema, "ui:field"), fields) ==>
              GetFieldComponent(schema, uiSchema, idSchema, fields) == Use(fields[Get(uiSchema, "ui:field").s])
    ensures NoOverride(uiSchema, fields) ==>
              var key := JsString(ComponentName(Get(schema, "type")));
              GetFieldComponent(schema, uiSchema, idSchema, fields)
                == if key in fields then Use(fields[key])
                   else Unsupported(schema, idSchema, UnknownTypeReason(Get(schema, "type")))
  {
  }

  /** The placeholder is chosen exactly when no override applies and the registry has
      no entry under the looked-up name; its reason names the schema's type. */
  lemma UnsupportedExactly(schema: JsObject, uiSchema: JsObject, idSchema: JsObject,
                           fields: map<string, FnRef>)
    ensures GetFieldComponent(schema, uiSchema, idSchema, fields).Unsupported?
            <==> NoOverride(uiSchema, fields) && JsString(ComponentName(Get(schema, "type"))) !in fields
    ensures GetFieldComponent(schema, uiSchema, idSchema, fields).Unsupported? ==>
              GetFieldComponent(schema, uiSchema, idSchema, fields).reason
                == "Unknown field type " + JsString(Get(schema, "type"))
  {
  }

  /** A registry holding the five standard renderers and no `"undefined"` entry. */
  predicate StandardFields(fields: map<string, FnRef>) {
    && "undefined" !in fields
    && forall name | name in ComponentTypes.Values :: name in fields
  }

  /** With the standard renderers registered and no override, a schema gets a renderer
      from the registry exactly when its type text is in the table; every other type,
      a missing one included, gets the placeholder. */
  lemma StandardDispatch(schema: JsObject, uiSchema: JsObject, idSchema: JsObject,
                         fields: map<string, FnRef>)
    requires StandardFields(fields)
    requires NoOverride(uiSchema, fields)
    ensures var h := GetFieldComponent(schema, uiSchema, idSchema, fields);
            var key := JsString(Get(schema, "type"));
            && (key in ComponentTypes ==> h == Use(fields[ComponentTypes[key]]))
            && (key !in ComponentTypes ==> h == Unsupported(schema, idSchema, "Unknown field type " + key))
  {
  }

  /** `integer` and `number` share one renderer. */
  lemma IntegerAndNumberShareRenderer(schema: JsObject, uiSchema: JsObject, idSchema: JsObject,
                                      fields: map<string, FnRef>)
    requires NoOverride(uiSchema, fields)
    requires "NumberField" in fields
    ensures GetFieldComponent(schema["type" := Str("integer")], uiSchema, idSchema, fields)
            == GetFieldComponent(schema["type" := Str("number")], uiSchema, idSchema, fields)
            == Use(fields["NumberField"])
  {
  }

  /** A schema of type `"null"` gets the placeholder from a standard registry: the
      table has no entry for it. */
  lemma NullTypeUnsupported(schema: JsObject, uiSchema: JsObject, idSchema: JsObject,
                            fields: map<string, FnRef>)
    requires StandardFields(fields)
    requires NoOverride(uiSchema, fields)
    ensures GetFieldComponent(schema["type" := Str("null")], uiSchema, idSchema, fields)
            == Unsupported(schema["type" := Str("null")], idSchema, "Unknown field type null")
  {
  }

  /** A schema without a type gets the placeholder from a standard registry, with a
      reason naming `undefined`. */
  lemma MissingTypeUnsupported(schema: JsObject, uiSchema: JsObject, idSchema: JsObject,
                               fields: map<string, FnRef>)
    requires StandardFields(fields)
    requires NoOverride(uiSchema, fields)
    ensures GetFieldComponent(schema - {"type"}, uiSchema, idSchema, fields)
            == Unsupported(schema - {"type"}, idSchema, "Unknown field type undefined")
  {
  }
}

=== FILE: display_options.dfy ===
/**
 The display options a schema field derives from its resolved schema, its raw schema
 and its UI-schema overlay: whether to show a label, the label and description text,
 and the space-separated class-name list.
 */
module DisplayOptions {
  import opened JsValue

  /** The label option of `ui:options`, with the destructuring default `true` applied
      (the default replaces `undefined` only). */
  function LabelOption(uiOptions: JsObject): Value {
    var option := Get(uiOptions, "label");
    if option == Undefined then Bool(true) else option
  }

  /** `displayLabel`, computed as the source's sequence of overriding assignments:
      start from the label option; an array shows a label exactly when it is a
      multi-select or a file array; an object never does; a boolean without a widget
      override never does; and a truthy `ui:field` turns the label off last of all.
      `multiSelect` and `filesArray` are what the utilities report for this schema.
      The contract states the same rules as a decision table read from the top. */
  function DisplayLabel(schemaType: Value, uiSchema: JsObject, uiOptions: JsObject,
                        multiSelect: bool, filesArray: bool): (r: Value)
    ensures Truthy(Get(uiSchema, "ui:field")) ==> r == Bool(false)
    ensures !Truthy(Get(uiSchema, "ui:field")) ==>
              if schemaType == Str("object") then r == Bool(false)
              else if schemaType == Str("boolean") && !Truthy(Get(uiSchema, "ui:widget")) then r == Bool(false)
              else if schemaType == Str("array") then r == Bool(multiSelect || filesArray)
              else r == LabelOption(uiOptions)
    ensures r != Undefined
  {
    var fromOptions := LabelOption(uiOptions);
    var afterArray := if schemaType == Str("array") then Bool(multiSelect || filesArray) else fromOptions;
    var afterObject := if schemaType == Str("object") then Bool(false) else afterArray;
    var afterBoolean :=
      if schemaType == Str("boolean") && !Truthy(Get(uiSchema, "ui:widget")) then Bool(false)
      else afterObject;
    if Truthy(Get(uiSchema, "ui:field")) then Bool(false) else afterBoolean
  }

  /** Only an array schema consults the multi-select and file-array tests; for every
      other type they cannot change the outcome. A boolean with a widget override keeps
      whatever the label option says. */
  lemma DisplayLabelHelpersOnlyForArrays(schemaType: Value, uiSchema: JsObject, uiOptions: JsObject,
                                         multiSelect: bool, filesArray: bool,
                                         multiSelect': bool, filesArray': bool)
    requires schemaType != Str("array")
    ensures DisplayLabel(schemaType, uiSchema, uiOptions, multiSelect, filesArray)
            == DisplayLabel(schemaType, uiSchema, uiOptions, multiSelect', filesArray')
    ensures schemaType == Str("boolean") && Truthy(Get(uiSchema, "ui:widget"))
            && !Truthy(Get(uiSchema, "ui:field")) ==>
              DisplayLabel(schemaType, uiSchema, uiOptions, multiSelect, filesArray) == LabelOption(uiOptions)
  {
  }

  /** `ui:title || schema.title || resolvedSchema.title || name`, where `schema` is the
      schema as passed in and `resolvedSchema` the one `retrieveSchema` returned: the
      first truthy of the four, and `name` itself when none is. */
  function FieldLabel(uiSchema: JsObject, rawSchema: JsObject, schema: JsObject, name: Value): (r: Value)
    ensures Truthy(Get(uiSchema, "ui:title")) ==> r == Get(uiSchema, "ui:title")
    ensures !Truthy(Get(uiSchema, "ui:title")) && Truthy(Get(rawSchema, "title")) ==>
              r == Get(rawSchema, "title")
    ensures !Truthy(Get(uiSchema, "ui:title")) && !Truthy(Get(rawSchema, "title"))
            && Truthy(Get(schema, "title")) ==>
              r == Get(schema, "title")
    ensures !Truthy(Get(uiSchema, "ui:title")) && !Truthy(Get(rawSchema, "title"))
            && !Truthy(Get(schema, "title")) ==>
              r == name
  {
    Or(Get(uiSchema, "ui:title"), Or(Get(rawSchema, "title"), Or(Get(schema, "title"), name)))
  }

  /** The label is the left-to-right `||` chain of its four operands. */
  lemma FieldLabelIsOrChain(uiSchema: JsObject, rawSchema: JsObject, schema: JsObject, name: Value)
    ensures FieldLabel(uiSchema, rawSchema, schema, name)
            == OrChain([Get(uiSchema, "ui:title"), Get(rawSchema, "title"), Get(schema, "title"), name])
  {
    var chain := [Get(uiSchema, "ui:title"), Get(rawSchema, "title"), Get(schema, "title"), name];
    assert Truthy(chain[0]) ==> IsFirstTruthy(chain, 0);
    assert !Truthy(chain[0]) && Truthy(chain[1]) ==> IsFirstTruthy(chain, 1);
    assert !Truthy(chain[0]) && !Truthy(chain[1]) && Truthy(chain[2]) ==> IsFirstTruthy(chain, 2);
  }

  /** `ui:description || schema.description || resolvedSchema.description`: the first
      truthy of the three, and the resolved schema's description when none is. */
  function FieldDescription(uiSchema: JsObject, rawSchema: JsObject, schema: JsObject): (r: Value)
    ensures Truthy(Get(uiSchema, "ui:description")) ==> r == Get(uiSchema, "ui:description")
    ensures !Truthy(Get(uiSchema, "ui:description")) && Truthy(Get(rawSchema, "description")) ==>
              r == Get(rawSchema, "description")
    ensures !Truthy(Get(uiSchema, "ui:description")) && !Truthy(Get(rawSchema, "description")) ==>
              r == Get(schema, "description")
  {
    Or(Get(uiSchema, "ui:description"), Or(Get(rawSchema, "description"), Get(schema, "description")))
  }

  /** The description is the left-to-right `||` chain of its three operands. */
  lemma FieldDescriptionIsOrChain(uiSchema: JsObject, rawSchema: JsObject, schema: JsObject)
    ensures FieldDescription(uiSchema, rawSchema, schema)
            == OrChain([Get(uiSchema, "ui:description"), Get(rawSchema, "description"), Get(schema, "description")])
  {
  }

  /** The field's own class list, `[`field-${type}`, uiSchema.classNames].join(" ").trim()`,
      with the two-element join written out: the head, a space, and the overlay's class
      text (empty when it is `undefined` or `null`). */
  function ClassNames(schemaType: Value, classNames: Value): string {
    Trim("field-" + JsString(schemaType) + " " + ElementText(classNames))
  }

  /** The class list is the trimmed join of the two entries. */
  lemma ClassNamesIsTrimmedJoin(schemaType: Value, classNames: Value)
    ensures ClassNames(schemaType, classNames)
            == Trim(JoinValues([Str("field-" + JsString(schemaType)), classNames], " "))
  {
    JoinTwo(Str("field-" + JsString(schemaType)), classNames, " ");
  }

  /** The class list always starts with `field-`: trimming can only cut whitespace, and
      the head is six non-whitespace characters. */
  lemma ClassNamesStartWithField(schemaType: Value, classNames: Value)
    ensures |ClassNames(schemaType, classNames)| >= 6 && ClassNames(schemaType, classNames)[..6] == "field-"
  {
    var joined := "field-" + JsString(schemaType) + " " + ElementText(classNames);
    assert joined[..6] == "field-";
    TrimCutsOnlyWhitespace(joined);
    var i, j :| IsWhitespaceCut(joined, Trim(joined), i, j);
    assert !IsWhitespace(joined[0]) && !IsWhitespace(joined[5]);
    assert i == 0 && j >= 6;
    assert Trim(joined)[..6] == joined[..6];
  }

  /** Without an overlay class list the result is the trimmed `field-<type>`; with a
      class list that is non-empty and not padded by whitespace, it is
      `field-<type> <classes>` exactly. */
  lemma ClassNamesJoin(schemaType: Value, classNames: Value)
    ensures Nullish(classNames) ==>
              ClassNames(schemaType, classNames) == Trim("field-" + JsString(schemaType))
    ensures classNames.Str? && classNames.s != ""
            && !IsWhitespace(classNames.s[0]) && !IsWhitespace(classNames.s[|classNames.s| - 1]) ==>
              ClassNames(schemaType, classNames) == "field-" + JsString(schemaType) + " " + classNames.s
  {
    var head := "field-" + JsString(schemaType);
    if Nullish(classNames) {
      TrimIgnoresTrailingWhitespace(head, ' ');
      assert head + " " + ElementText(classNames) == head + [' '];
    } else if classNames.Str? && classNames.s != ""
              && !IsWhitespace(classNames.s[0]) && !IsWhitespace(classNames.s[|classNames.s| - 1]) {
      var joined := head + " " + classNames.s;
      assert ElementText(classNames) == classNames.s;
      assert joined[0] == 'f';
      assert joined[|joined| - 1] == classNames.s[|classNames.s| - 1];
      TrimOfTrimmed(joined);
    }
  }
}

=== FILE: error_projection.dfy ===
/**
 The error schema of a field: its own messages under the reserved key `__errors`,
 and one nested error schema per child under every other key. A field keeps its own
 messages and hands the rest, one level down, to its renderer.
 */
module ErrorProjection {
  import opened JsValue

  /** The two halves of `const { __errors, ...fieldErrorSchema } = errorSchema`. */
  datatype Split = Split(own: Value, rest: JsObject)

  /** Own errors are exactly the `__errors` entry (`undefined` when absent); the rest
      is every other key with its value untouched. */
  function SplitErrors(errorSchema: JsObject): (r: Split)
    ensures r.own == Get(errorSchema, "__errors")
    ensures r.rest.Keys == errorSchema.Keys - {"__errors"}
    ensures forall k | k in r.rest :: r.rest[k] == errorSchema[k]
  {
    Split(Get(errorSchema, "__errors"), errorSchema - {"__errors"})
  }

  /** Nothing is lost and nothing is duplicated: putting the own errors back under
      `__errors` (when that key was there) rebuilds the error schema, and the own
      errors never also appear among the children. */
  lemma SplitConserves(errorSchema: JsObject)
    ensures var r := SplitErrors(errorSchema);
            && "__errors" !in r.rest
            && errorSchema == if "__errors" in errorSchema then r.rest["__errors" := r.own] else r.rest
  {
  }

  /** `n > 0` for the value of a `length` property: numbers compare, booleans count
      as 0 or 1, and `undefined` and `null` do not exceed 0. */
  predicate ExceedsZero(v: Value) {
    match v
    case Num(n) => n > 0
    case Bool(b) => b
    case _ => false
  }

  /** `(errors && errors.length > 0) || false`: only a truthy value with a positive
      length counts, so absent errors and an empty list both give false. */
  function ContainsErrors(errors: Value): (r: bool)
    ensures r ==> Truthy(errors)
    ensures Nullish(errors) ==> !r
    ensures errors.Arr? ==> (r <==> |errors.items| > 0)
    ensures errors.Str? ==> (r <==> errors.s != "")
  {
    Truthy(errors) && (match LengthOf(errors) case Normal(len) => ExceedsZero(len) case Throw(_) => false)
  }
}

=== FILE: js_value.dfy ===
/**
 The JavaScript values that flow through the schema field: schema fragments, UI-schema
 overlays and error schemas are plain objects, and the field layer only ever reads them
 by key, tests them for truthiness, chains them with `||`, or turns them into text
 (template literals, `Array.prototype.join`, `String.prototype.trim`). This module spells
 out exactly those operations.
 */
module JsValue {

  /** A function value: a registered component or an inline `ui:field` override.
      `arity` is what its `length` property reports and `source` what it turns into as text. */
  datatype FnRef = FnRef(id: nat, arity: nat, source: string)

  /** A JavaScript value. Numbers are integers (no NaN, no fractions). */
  datatype Value =
    | Undefined
    | Null
    | Bool(b: bool)
    | Num(n: int)
    | Str(s: string)
    | Fn(f: FnRef)
    | Arr(items: seq<Value>)
    | Obj(props: JsObject)

  /** A plain object: own enumerable string keys and their values. */
  type JsObject = map<string, Value>

  /** The outcome of evaluating something that may throw. */
  datatype Completion<T> = Normal(value: T) | Throw(reason: string)

  /** JavaScript truthiness: `undefined`, `null`, `false`, `0` and `""` are falsy. */
  predicate Truthy(v: Value) {
    match v
    case Undefined => false
    case Null => false
    case Bool(b) => b
    case Num(n) => n != 0
    case Str(s) => s != ""
    case _ => true
  }

  predicate Nullish(v: Value) {
    v.Undefined? || v.Null?
  }

  /** Property read `o[k]` on a plain object: a missing key reads as `undefined`. */
  function Get(o: JsObject, k: string): Value {
    if k in o then o[k] else Undefined
  }

  /** `a || b`: the left operand when it is truthy, otherwise the right one. */
  function Or(a: Value, b: Value): Value {
    if Truthy(a) then a else b
  }

  /** `vs[i]` is the first truthy operand of the chain. */
  predicate IsFirstTruthy(vs: seq<Value>, i: int) {
    0 <= i < |vs| && Truthy(vs[i]) && forall j | 0 <= j < i :: !Truthy(vs[j])
  }

  /** `vs[0] || vs[1] || ... || vs[n-1]`, evaluated left to right as JavaScript does:
      the first truthy operand, or the last operand when none is truthy. */
  function OrChain(vs: seq<Value>): (r: Value)
    requires |vs| > 0
    ensures Truthy(r) <==> exists i | 0 <= i < |vs| :: Truthy(vs[i])
    ensures Truthy(r) ==> exists i :: IsFirstTruthy(vs, i) && r == vs[i]
    ensures !Truthy(r) ==> r == vs[|vs| - 1]
    ensures forall k | IsFirstTruthy(vs, k) :: r == vs[k]
  {
    if |vs| == 1 then vs[0]
    else
      var head := OrChain(vs[..|vs| - 1]);
      assert forall j | 0 <= j < |vs| - 1 :: vs[..|vs| - 1][j] == vs[j];
      if Truthy(head) then
        var i :| IsFirstTruthy(vs[..|vs| - 1], i) && head == vs[..|vs| - 1][i];
        assert IsFirstTruthy(vs, i);
        Or(head, vs[|vs| - 1])
      else
        Or(head, vs[|vs| - 1])
  }

  /** The decimal digits of a natural number. */
  function DigitsText(n: nat): string
    decreases n
  {
    var digit := "0123456789"[n % 10];
    if n < 10 then [digit] else DigitsText(n / 10) + [digit]
  }

  /** `String(n)` for an integer. */
  function NumberText(n: int): string {
    if n < 0 then "-" + DigitsText(-n) else DigitsText(n)
  }

  /** Concatenation of `parts` with `sep` between neighbours. */
  function JoinStrings(parts: seq<string>, sep: string): string {
    if |parts| == 0 then ""
    else if |parts| == 1 then parts[0]
    else parts[0] + sep + JoinStrings(parts[1..], sep)
  }

  /** `String(v)`, the text a template literal such as `field-${v}` inserts. */
  function JsString(v: Value): string
    decreases v, 1
  {
    match v
    case Undefined => "undefined"
    case Null => "null"
    case Bool(b) => if b then "true" else "false"
    case Num(n) => NumberText(n)
    case Str(s) => s
    case Fn(f) => f.source
    case Arr(xs) =>
      JoinStrings(seq(|xs|, i requires 0 <= i < |xs| => ElementText(xs[i])), ",")
    case Obj(_) => "[object Object]"
  }

  /** How `Array.prototype.join` writes one element: `undefined` and `null` become empty. */
  function ElementText(v: Value): string
    decreases v, 2
  {
    if Nullish(v) then "" else JsString(v)
  }

  /** `[v0, v1, ...].join(sep)`. */
  function JoinValues(vs: seq<Value>, sep: string): string {
    JoinStrings(seq(|vs|, i requires 0 <= i < |vs| => ElementText(vs[i])), sep)
  }

  /** Joining two values puts the separator between their texts. */
  lemma JoinTwo(a: Value, b: Value, sep: string)
    ensures JoinValues([a, b], sep) == ElementText(a) + sep + ElementText(b)
  {
    var parts := seq(2, i requires 0 <= i < 2 => ElementText([a, b][i]));
    assert parts == [ElementText(a), ElementText(b)];
    assert parts[1..] == [ElementText(b)];
    assert JoinStrings(parts[1..], sep) == ElementText(b);
    assert JoinStrings(parts, sep) == parts[0] + sep + JoinStrings(parts[1..], sep);
  }

  /** The characters `String.prototype.trim` removes: WhiteSpace and LineTerminator
      of section 12.2 and 12.3 of ECMA-262. */
  predicate IsWhitespace(c: char) {
    || c == '\t' || c == '\n' || c == '\U{000B}' || c == '\U{000C}' || c == '\r' || c == ' '
    || c == '\U{00A0}' || c == '\U{1680}' || ('\U{2000}' <= c <= '\U{200A}')
    || c == '\U{2028}' || c == '\U{2029}' || c == '\U{202F}' || c == '\U{205F}'
    || c == '\U{3000}' || c == '\U{FEFF}'
  }

  /** `s.trim()`: leading whitespace is cut, then trailing whitespace, one character
      at a time, until neither end is whitespace. */
  function Trim(s: string): (r: string)
    ensures |r| <= |s|
    ensures r == "" || (!IsWhitespace(r[0]) && !IsWhitespace(r[|r| - 1]))
  {
    if s != "" && IsWhitespace(s[0]) then Trim(s[1..])
    else if s != "" && IsWhitespace(s[|s| - 1]) then Trim(s[..|s| - 1])
    else s
  }

  /** `r` is `s[i..j]`, and everything of `s` outside that slice is whitespace. */
  predicate IsWhitespaceCut(s: string, r: string, i: int, j: int) {
    && 0 <= i <= j <= |s| && r == s[i..j]
    && (forall k | 0 <= k < i :: IsWhitespace(s[k]))
    && (forall k | j <= k < |s| :: IsWhitespace(s[k]))
  }

  /** Cutting one leading whitespace character extends a cut of the rest. */
  lemma WhitespaceCutLeading(s: string, i: int, j: int)
    requires s != "" && IsWhitespace(s[0])
    requires IsWhitespaceCut(s[1..], Trim(s[1..]), i, j)
    ensures IsWhitespaceCut(s, Trim(s), i + 1, j + 1)
  {
    var t := s[1..];
    assert Trim(s) == Trim(t);
    assert t[i..j] == s[i + 1..j + 1];
    forall k | 1 <= k < i + 1 ensures IsWhitespace(s[k]) {
      assert s[k] == t[k - 1];
    }
    forall k | j + 1 <= k < |s| ensures IsWhitespace(s[k]) {
      assert s[k] == t[k - 1];
    }
  }

  /** Cutting one trailing whitespace character extends a cut of the rest. */
  lemma WhitespaceCutTrailing(s: string, i: int, j: int)
    requires s != "" && !IsWhitespace(s[0]) && IsWhitespace(s[|s| - 1])
    requires IsWhitespaceCut(s[..|s| - 1], Trim(s[..|s| - 1]), i, j)
    ensures IsWhitespaceCut(s, Trim(s), i, j)
  {
    var t := s[..|s| - 1];
    assert Trim(s) == Trim(t);
    assert t[i..j] == s[i..j];
    assert t != [] ==> t[0] == s[0];
    assert i == 0;
    forall k | j <= k < |s| ensures IsWhitespace(s[k]) {
      if k < |t| { assert s[k] == t[k]; }
    }
  }

  /** The trim is a slice of `s`, and everything cut from either end is whitespace. */
  lemma {:induction false} TrimCutsOnlyWhitespace(s: string)
    ensures exists i, j :: IsWhitespaceCut(s, Trim(s), i, j)
    decreases |s|
  {
    if s != "" && IsWhitespace(s[0]) {
      TrimCutsOnlyWhitespace(s[1..]);
      var i, j :| IsWhitespaceCut(s[1..], Trim(s[1..]), i, j);
      WhitespaceCutLeading(s, i, j);
    } else if s != "" && IsWhitespace(s[|s| - 1]) {
      TrimCutsOnlyWhitespace(s[..|s| - 1]);
      var i, j :| IsWhitespaceCut(s[..|s| - 1], Trim(s[..|s| - 1]), i, j);
      WhitespaceCutTrailing(s, i, j);
    } else {
      assert IsWhitespaceCut(s, Trim(s), 0, |s|);
    }
  }

  /** A string that neither starts nor ends with whitespace is its own trim. */
  lemma TrimOfTrimmed(s: string)
    requires s == "" || (!IsWhitespace(s[0]) && !IsWhitespace(s[|s| - 1]))
    ensures Trim(s) == s
  {
  }

  /** Trailing whitespace makes no difference to the trim. */
  lemma {:induction false} TrimIgnoresTrailingWhitespace(s: string, c: char)
    requires IsWhitespace(c)
    ensures Trim(s + [c]) == Trim(s)
    decreases |s|
  {
    if s == "" {
      assert Trim(s + [c]) == Trim((s + [c])[1..]);
      assert (s + [c])[1..] == "";
    } else if IsWhitespace(s[0]) {
      assert (s + [c])[1..] == s[1..] + [c];
      TrimIgnoresTrailingWhitespace(s[1..], c);
    } else {
      assert (s + [c])[..|s|] == s;
    }
  }

  /** `v.length` on a value: `undefined` and `null` throw, arrays and strings report
      their size, functions their arity, objects their own `length` key, and booleans and
      numbers have no such property. */
  function LengthOf(v: Value): (r: Completion<Value>)
    ensures r.Throw? <==> Nullish(v)
    ensures v.Arr? ==> r == Normal(Num(|v.items|))
    ensures v.Str? ==> r == Normal(Num(|v.s|))
  {
    match v
    case Undefined => Throw("TypeError: Cannot read properties of undefined (reading 'length')")
    case Null => Throw("TypeError: Cannot read properties of null (reading 'length')")
    case Bool(_) => Normal(Undefined)
    case Num(_) => Normal(Undefined)
    case Str(s) => Normal(Num(|s|))
    case Fn(f) => Normal(Num(f.arity))
    case Arr(xs) => Normal(Num(|xs|))
    case Obj(m) => Normal(Get(m, "length"))
  }
}

=== FILE: props.dfy ===
/**
 The inputs of one schema field: its props (after React's `defaultProps` have filled
 in `uiSchema`, `errorSchema`, `idSchema` and the three flags), the registry it reads
 renderers from, and the utility functions whose source is not part of this model.
 */
module FieldProps {
  import opened JsValue

  /** The registry threaded through the whole form. `fields` maps a renderer name
      (`"StringField"`, `"DescriptionField"`, ...) to the renderer. */
  datatype Registry = Registry(
    definitions: JsObject,
    fields: map<string, FnRef>,
    formContext: Value)

  /** The props of a schema field. `rest` holds every other prop (callbacks and the
      like), which the field only passes on to its child. */
  datatype Props = Props(
    schema: JsObject,
    uiSchema: JsObject,
    formData: Value,
    errorSchema: JsObject,
    idSchema: JsObject,
    name: Value,
    required: Value,
    disabled: Value,
    readOnly: Value,
    autoFocus: Value,
    formContext: Value,
    registry: Registry,
    rest: JsObject)

  /** The helpers imported from the utils module, taken as parameters:
      `retrieveSchema(schema, definitions, formData)` resolves references and
      conditional branches and may throw; `getUiOptions(uiSchema)` collects the
      `ui:options`; `isMultiSelect(schema, definitions)` and
      `isFilesArray(schema, uiSchema, definitions)` classify array schemas. */
  datatype Utils = Utils(
    retrieveSchema: (JsObject, JsObject, Value) -> Completion<JsObject>,
    getUiOptions: JsObject -> JsObject,
    isMultiSelect: (JsObject, JsObject) -> bool,
    isFilesArray: (JsObject, JsObject, JsObject) -> bool)
}

=== FILE: schema_field.dfy ===
/**
 The schema field itself: resolve the schema, pick a renderer, derive the display
 options, split the errors, build the body element and lay it out with the default
 template; and the change gate that decides whether a new set of props needs a new
 render at all.
 */
module SchemaField {
  import opened JsValue
  import opened FieldProps
  import opened Dispatch
  import opened DisplayOptions
  import opened ErrorProjection
  import opened Template

  /** `Boolean(prop || uiSchema[directive])`: a flag is on when either the prop or the
      overlay directive is truthy, so a falsy prop never switches off a truthy
      directive. */
  function Flag(prop: Value, uiSchema: JsObject, directive: string): (r: bool)
    ensures r == Truthy(Or(prop, Get(uiSchema, directive)))
    ensures Truthy(Get(uiSchema, directive)) ==> r
  {
    Truthy(prop) || Truthy(Get(uiSchema, directive))
  }

  /** The body element: the dispatched renderer, given the field's own props with the
      resolved schema, an overlay whose `classNames` has been consumed, the three
      flags as booleans, the error schema without this field's own errors, and the
      registry's form context. */
  function FieldBody(p: Props, schema: JsObject): (body: Node)
    ensures body.FieldElem?
    ensures body.component == GetFieldComponent(schema, p.uiSchema, p.idSchema, p.registry.fields)
    ensures body.props.schema == schema
    ensures Get(body.props.uiSchema, "classNames") == Undefined
    ensures body.props.disabled == Bool(Truthy(p.disabled) || Truthy(Get(p.uiSchema, "ui:disabled")))
    ensures body.props.readOnly == Bool(Truthy(p.readOnly) || Truthy(Get(p.uiSchema, "ui:readOnly")))
    ensures body.props.autoFocus == Bool(Truthy(p.autoFocus) || Truthy(Get(p.uiSchema, "ui:autoFocus")))
    ensures body.props.formContext == p.registry.formContext
  {
    var ui := p.uiSchema;
    var component := GetFieldComponent(schema, ui, p.idSchema, p.registry.fields);
    FieldElem(component, p.(
      schema := schema,
      uiSchema := ui["classNames" := Undefined],
      disabled := Bool(Flag(p.disabled, ui, "ui:disabled")),
      readOnly := Bool(Flag(p.readOnly, ui, "ui:readOnly")),
      autoFocus := Bool(Flag(p.autoFocus, ui, "ui:autoFocus")),
      errorSchema := SplitErrors(p.errorSchema).rest,
      formContext := p.registry.formContext))
  }

  /** What the body hands down besides the flags: the overlay unchanged except for
      `classNames`, the error schema without `__errors` and otherwise untouched, and
      every other prop (name, required flag, form data, identity, registry and the
      rest) exactly as received. */
  lemma FieldBodyHandsDown(p: Props, schema: JsObject)
    ensures var body := FieldBody(p, schema);
            && (forall k | k != "classNames" :: Get(body.props.uiSchema, k) == Get(p.uiSchema, k))
            && body.props.errorSchema.Keys == p.errorSchema.Keys - {"__errors"}
            && (forall k | k in body.props.errorSchema :: body.props.errorSchema[k] == p.errorSchema[k])
            && body.props.(schema := p.schema, uiSchema := p.uiSchema, errorSchema := p.errorSchema,
                           disabled := p.disabled, readOnly := p.readOnly, autoFocus := p.autoFocus,
                           formContext := p.formContext) == p
  {
  }

  /** The props handed to the field template for a non-empty resolved `schema`: the
      derived display options, the own errors and their error-list element, the help
      element, and the identity, required flag and registry passed through. */
  function FieldTemplateProps(p: Props, u: Utils, schema: JsObject): TemplateProps {
    var ui := p.uiSchema;
    var definitions := p.registry.definitions;
    var schemaType := Get(schema, "type");
    var displayLabel := DisplayLabel(schemaType, ui, u.getUiOptions(ui),
                                     u.isMultiSelect(schema, definitions),
                                     u.isFilesArray(schema, ui, definitions));
    var split := SplitErrors(p.errorSchema);
    var id := Get(p.idSchema, "$id");
    var description := FieldDescription(ui, p.schema, schema);
    var help := Get(ui, "ui:help");
    var descriptionField := if "DescriptionField" in p.registry.fields then Fn(p.registry.fields["DescriptionField"]) else Undefined;
    TemplateProps(
      description := DescriptionElem(descriptionField, JsString(id) + "__description", description, p.registry.formContext),
      rawDescription := description,
      help := HelpElem(help),
      rawHelp := if help.Str? then help else Undefined,
      errors := ErrorListElem(split.own),
      containsErrors := ContainsErrors(split.own),
      rawErrors := split.own,
      id := id,
      labelText := FieldLabel(ui, p.schema, schema, p.name),
      hidden := Get(ui, "ui:widget") == Str("hidden"),
      required := p.required,
      disabled := Flag(p.disabled, ui, "ui:disabled"),
      readOnly := Flag(p.readOnly, ui, "ui:readOnly"),
      displayLabel := displayLabel,
      classNames := ClassNames(schemaType, Get(ui, "classNames")),
      formContext := p.registry.formContext,
      fields := p.registry.fields,
      schema := schema,
      uiSchema := ui)
  }

  /** What the template receives, in the terms it uses them: the help element wraps the
      overlay's help, whose raw form is passed on only when it is text; the error-list
      element and the error flag are about the same own errors; `displayLabel` is never
      left undefined, so the template's default never applies; the class list is the
      field's own and starts with `field-`; the description element is the registry's
      `DescriptionField` with the registry's form context, carries the description text,
      and its id is the field id followed by `__description`; and the
      flags, the hidden bypass and the required flag are passed as derived. */
  lemma TemplatePropsDerived(p: Props, u: Utils, schema: JsObject)
    ensures var tp := FieldTemplateProps(p, u, schema);
            && tp.help == HelpElem(Get(p.uiSchema, "ui:help"))
            && (tp.rawHelp != Undefined ==> tp.rawHelp.Str? && tp.rawHelp == tp.help.help)
            && (tp.help.help.Str? ==> tp.rawHelp == tp.help.help)
            && tp.errors == ErrorListElem(tp.rawErrors)
            && tp.rawErrors == Get(p.errorSchema, "__errors")
            && tp.containsErrors == ContainsErrors(tp.rawErrors)
            && tp.displayLabel != Undefined
            && |tp.classNames| >= 6 && tp.classNames[..6] == "field-"
            && tp.description.DescriptionElem?
            && tp.description.elementId == JsString(tp.id) + "__description"
            && tp.id == Get(p.idSchema, "$id")
            && tp.disabled == Flag(p.disabled, p.uiSchema, "ui:disabled")
            && tp.readOnly == Flag(p.readOnly, p.uiSchema, "ui:readOnly")
            && tp.hidden == (Get(p.uiSchema, "ui:widget") == Str("hidden"))
            && tp.required == p.required
            && tp.classNames == ClassNames(Get(schema, "type"), Get(p.uiSchema, "classNames"))
            && tp.rawDescription == FieldDescription(p.uiSchema, p.schema, schema)
            && tp.description.description == tp.rawDescription
            && tp.description.formContext == p.registry.formContext
            && tp.description.descriptionField
               == (if "DescriptionField" in p.registry.fields then Fn(p.registry.fields["DescriptionField"]) else Undefined)
  {
    ClassNamesStartWithField(Get(schema, "type"), Get(p.uiSchema, "classNames"));
  }

  /** Rendering one schema field with the default template. A throw from resolving the
      schema propagates; a resolved schema without keys renders the neutral empty
      element; otherwise the template lays out the body with the derived options. */
  function SchemaFieldRender(p: Props, u: Utils): (r: Completion<Node>)
    ensures r.Throw? <==> u.retrieveSchema(p.schema, p.registry.definitions, p.formData).Throw?
    ensures r.Normal? ==>
              var schema := u.retrieveSchema(p.schema, p.registry.definitions, p.formData).value;
              && (|schema| == 0 ==> r.value == Div)
              && (|schema| != 0 ==> r.value == DefaultTemplate(FieldTemplateProps(p, u, schema), FieldBody(p, schema)))
  {
    match u.retrieveSchema(p.schema, p.registry.definitions, p.formData)
    case Throw(reason) => Throw(reason)
    case Normal(schema) =>
      if |schema| == 0 then Normal(Div)
      else Normal(DefaultTemplate(FieldTemplateProps(p, u, schema), FieldBody(p, schema)))
  }

  /** A field whose overlay says `ui:widget: "hidden"` renders as its body alone, and
      evaluating that output cannot fail, whatever its label, description, help and
      errors are. */
  lemma RenderHiddenIsBody(p: Props, u: Utils)
    requires u.retrieveSchema(p.schema, p.registry.definitions, p.formData).Normal?
    requires |u.retrieveSchema(p.schema, p.registry.definitions, p.formData).value| != 0
    requires Get(p.uiSchema, "ui:widget") == Str("hidden")
    ensures var schema := u.retrieveSchema(p.schema, p.registry.definitions, p.formData).value;
            && SchemaFieldRender(p, u) == Normal(FieldBody(p, schema))
            && Mount(FieldBody(p, schema)) == Normal(FieldBody(p, schema))
  {
  }

  /** A field that is not hidden renders a form field holding, in order: the label
      exactly when `displayLabel` is truthy (an empty element otherwise); the
      description element exactly when `displayLabel` is truthy (the element is always
      present, so the text itself does not gate it); the body; the error list of the
      field's own errors; and the help. The form field is in the error state exactly
      when the own errors are a truthy value of positive length, carries the field id
      and the field's class list, and is required exactly as the prop says (`false`
      when it is undefined); the description element is the registry's
      `DescriptionField`, given the description text and the registry's form context. */
  lemma RenderComposition(p: Props, u: Utils)
    requires u.retrieveSchema(p.schema, p.registry.definitions, p.formData).Normal?
    requires |u.retrieveSchema(p.schema, p.registry.definitions, p.formData).value| != 0
    requires Get(p.uiSchema, "ui:widget") != Str("hidden")
    ensures var schema := u.retrieveSchema(p.schema, p.registry.definitions, p.formData).value;
            var show := Truthy(DisplayLabel(Get(schema, "type"), p.uiSchema, u.getUiOptions(p.uiSchema),
                                            u.isMultiSelect(schema, p.registry.definitions),
                                            u.isFilesArray(schema, p.uiSchema, p.registry.definitions)));
            var r := SchemaFieldRender(p, u).value;
            && r.FormField?
            && r.error == ContainsErrors(Get(p.errorSchema, "__errors"))
            && r.children[0] == (if show then LabelElem(Get(p.idSchema, "$id"), FieldLabel(p.uiSchema, p.schema, schema, p.name)) else Div)
            && (r.children[1].DescriptionElem? <==> show)
            && r.children[2..] == [FieldBody(p, schema), ErrorListElem(Get(p.errorSchema, "__errors")),
                                  HelpElem(Get(p.uiSchema, "ui:help"))]
            && r.id == Get(p.idSchema, "$id")
            && r.className == ClassNames(Get(schema, "type"), Get(p.uiSchema, "classNames"))
            && r.required == (if p.required == Undefined then Bool(false) else p.required)
            && (r.children[1].DescriptionElem? ==>
                  && r.children[1].description == FieldDescription(p.uiSchema, p.schema, schema)
                  && r.children[1].elementId == JsString(Get(p.idSchema, "$id")) + "__description"
                  && r.children[1].formContext == p.registry.formContext
                  && r.children[1].descriptionField
                     == (if "DescriptionField" in p.registry.fields then Fn(p.registry.fields["DescriptionField"]) else Undefined))
  {
  }

  /** `shouldComponentUpdate`: a deep comparison of the current and next props with
      `idSchema` blanked on both sides. The result is true exactly when some prop other
      than `idSchema` differs, so a change of identity alone never re-renders. */
  function ShouldComponentUpdate(current: Props, next: Props): (r: bool)
    ensures r <==>
              || current.schema != next.schema
              || current.uiSchema != next.uiSchema
              || current.formData != next.formData
              || current.errorSchema != next.errorSchema
              || current.name != next.name
              || current.required != next.required
              || current.disabled != next.disabled
              || current.readOnly != next.readOnly
              || current.autoFocus != next.autoFocus
              || current.formContext != next.formContext
              || current.registry != next.registry
              || current.rest != next.rest
  {
    current.(idSchema := map[]) != next.(idSchema := map[])
  }

  /** The gate is stable: props that agree everywhere but `idSchema` never re-render,
      identical props never re-render, and the gate is symmetric. */
  lemma ChangeGateIgnoresIdentity(p: Props, idSchema: JsObject, q: Props)
    ensures !ShouldComponentUpdate(p, p.(idSchema := idSchema))
    ensures !ShouldComponentUpdate(p, p)
    ensures ShouldComponentUpdate(p, q) == ShouldComponentUpdate(q, p)
  {
  }

  /** A titled string field, for every schema of type `"string"` with a truthy
      title and no overlay or errors (the options collected from the empty overlay carry
      no label option): the field is a form field, not in the error state, labelled
      with the title. */
  lemma TitledStringField(p: Props, u: Utils)
    requires u.retrieveSchema(p.schema, p.registry.definitions, p.formData) == Normal(p.schema)
    requires Get(p.schema, "type") == Str("string") && Truthy(Get(p.schema, "title"))
    requires p.uiSchema == map[] && p.errorSchema == map[]
    requires Get(u.getUiOptions(p.uiSchema), "label") == Undefined
    ensures var r := SchemaFieldRender(p, u);
            && r.Normal? && r.value.FormField? && !r.value.error
            && r.value.children[0] == LabelElem(Get(p.idSchema, "$id"), Get(p.schema, "title"))
  {
    var schema := p.schema;
    assert |schema| != 0 by { assert "type" in schema; }
    RenderComposition(p, u);
    assert DisplayLabel(Get(schema, "type"), p.uiSchema, u.getUiOptions(p.uiSchema),
                        u.isMultiSelect(schema, p.registry.definitions),
                        u.isFilesArray(schema, p.uiSchema, p.registry.definitions)) == Bool(true) by {
      assert Get(p.uiSchema, "ui:field") == Undefined;
    }
    assert FieldLabel(p.uiSchema, p.schema, schema, p.name) == Get(p.schema, "title") by {
      assert Get(p.uiSchema, "ui:title") == Undefined;
    }
    assert Get(p.errorSchema, "__errors") == Undefined;
  }

  /** The titled string field, continued: the registered string renderer draws the body, and
      the error list and help the field shows are those of no errors and no help, which
      evaluate to empty elements (`MountedTemplate`). */
  lemma TitledStringFieldParts(p: Props, u: Utils)
    requires u.retrieveSchema(p.schema, p.registry.definitions, p.formData) == Normal(p.schema)
    requires Get(p.schema, "type") == Str("string")
    requires p.uiSchema == map[] && p.errorSchema == map[]
    requires "StringField" in p.registry.fields
    ensures var r := SchemaFieldRender(p, u);
            && r.Normal? && r.value.FormField?
            && r.value.children[2].FieldElem?
            && r.value.children[2].component == Use(p.registry.fields["StringField"])
            && r.value.children[3] == ErrorListElem(Undefined)
            && r.value.children[4] == HelpElem(Undefined)
  {
    assert |p.schema| != 0 by { assert "type" in p.schema; }
    RenderComposition(p, u);
    assert Get(p.errorSchema, "__errors") == Undefined && Get(p.uiSchema, "ui:help") == Undefined;
    assert FieldBody(p, p.schema).component == Use(p.registry.fields["StringField"]) by {
      assert ComponentName(Str("string")) == Str("StringField");
    }
  }

  /** An object with child errors, for every object schema whose only errors belong
      to a child: no label is shown and the field is not in the error state. */
  lemma ObjectWithChildErrors(p: Props, u: Utils, child: string, childErrors: Value)
    requires u.retrieveSchema(p.schema, p.registry.definitions, p.formData) == Normal(p.schema)
    requires Get(p.schema, "type") == Str("object")
    requires Get(p.uiSchema, "ui:widget") != Str("hidden")
    requires child != "__errors"
    requires p.errorSchema == map[child := childErrors]
    ensures var r := SchemaFieldRender(p, u);
            && r.Normal? && r.value.FormField? && !r.value.error
            && r.value.children[0] == Div
  {
  }

  /** The object with child errors, continued: the body (which `RenderComposition` places third in
      the form field) receives the child's error schema untouched. */
  lemma ObjectChildErrorsHandedDown(p: Props, schema: JsObject, child: string, childErrors: Value)
    requires child != "__errors"
    requires p.errorSchema == map[child := childErrors]
    ensures FieldBody(p, schema).props.errorSchema == map[child := childErrors]
  {
  }

  /** A hidden overlay reduces a field to its body: whatever title, help or own errors it carries, even a `null` error list that
      would throw when shown, the output is the body and evaluating it cannot fail. */
  lemma HiddenOverlayIsBody(p: Props, u: Utils)
    requires u.retrieveSchema(p.schema, p.registry.definitions, p.formData) == Normal(p.schema)
    requires |p.schema| != 0
    requires Get(p.uiSchema, "ui:widget") == Str("hidden")
    ensures SchemaFieldRender(p, u) == Normal(FieldBody(p, p.schema))
    ensures Mount(SchemaFieldRender(p, u).value).Normal?
    ensures Get(p.errorSchema, "__errors") == Null ==> ErrorList(Get(p.errorSchema, "__errors")).Throw?
  {
    RenderHiddenIsBody(p, u);
  }
}

=== FILE: template.dfy ===
/**
 The field template: the abstract element tree a schema field produces, the two
 small inner components (`Help` and the field-level `ErrorList`), and the default
 template that lays out label, description, body, errors and help.
 */
module Template {
  import opened JsValue
  import opened Dispatch
  import opened FieldProps
  import opened ErrorProjection

  /** An element of the rendered tree. `HelpElem` and `ErrorListElem` are elements of
      the two inner components, not yet evaluated; `Mount` evaluates them. */
  datatype Node =
    | Nothing                                 // `null`: renders nothing
    | Div                                     // `<div />`: the neutral empty element
    | LabelElem(htmlFor: Value, text: Value)  // `<label htmlFor={id}> {label} </label>`
    | DescriptionElem(descriptionField: Value, elementId: string, description: Value, formContext: Value)
    | HelpElem(help: Value)                   // `<Help help={help} />`
    | ErrorListElem(errors: Value)            // `<ErrorList errors={errors} />`
    | HelpText(helpText: string)                // `<p className="help-block">`
    | HelpBlock(content: Value)               // `<div className="help-block">`
    | ErrorsView(items: seq<Value>)           // the bulleted error message
    | FieldElem(component: Handle, props: Props)
    | FormField(id: Value, className: string, required: Value, error: bool, children: seq<Node>)

  /** The props a schema field hands to its field template (the children are passed
      separately). The `raw*` entries are for custom templates. */
  datatype TemplateProps = TemplateProps(
    description: Node,
    rawDescription: Value,
    help: Node,
    rawHelp: Value,
    errors: Node,
    containsErrors: bool,
    rawErrors: Value,
    id: Value,
    labelText: Value,
    hidden: bool,
    required: Value,
    disabled: bool,
    readOnly: bool,
    displayLabel: Value,
    classNames: string,
    formContext: Value,
    fields: map<string, FnRef>,
    schema: JsObject,
    uiSchema: JsObject)

  /** The help component: a falsy help value renders the neutral empty element, a
      string a help paragraph, and anything else a help block around it. It never fails. */
  function Help(help: Value): (r: Node)
    ensures r == Div <==> !Truthy(help)
    ensures Truthy(help) && help.Str? ==> r == HelpText(help.s)
    ensures Truthy(help) && !help.Str? ==> r == HelpBlock(help)
  {
    if !Truthy(help) then Div
    else if help.Str? then HelpText(help.s)
    else HelpBlock(help)
  }

  /** The field-level error list. Absent errors default to `[]`; anything of length 0
      renders the neutral empty element; a non-empty array renders one bullet per
      entry; `null` throws on reading `length`, and any other value of non-zero length
      throws on calling `map`. */
  function ErrorList(errors: Value): (r: Completion<Node>)
    ensures errors.Arr? ==> r == Normal(if |errors.items| == 0 then Div else ErrorsView(errors.items))
    ensures r == Normal(Div) <==> errors == Undefined || LengthOf(errors) == Normal(Num(0))
    ensures r.Normal? && r.value != Div ==> errors.Arr? && |errors.items| > 0 && r.value == ErrorsView(errors.items)
    ensures r.Throw? <==> !errors.Undefined? && !errors.Arr? && LengthOf(errors) != Normal(Num(0))
  {
    var list := if errors == Undefined then Arr([]) else errors;
    match LengthOf(list)
    case Throw(reason) => Throw(reason)
    case Normal(len) =>
      if len == Num(0) then Normal(Div)
      else if list.Arr? then Normal(ErrorsView(list.items))
      else Throw("TypeError: errors.map is not a function")
  }

  /** For the two shapes a validator produces (no `__errors`, or an array of messages)
      the error list never fails, and it shows error chrome exactly when the field is
      marked as containing errors. */
  lemma ErrorChromeMatchesContainsErrors(errors: Value)
    requires errors.Undefined? || errors.Arr?
    ensures ErrorList(errors).Normal?
    ensures ErrorList(errors) != Normal(Div) <==> ContainsErrors(errors)
  {
  }

  /** The default field template. A hidden field is its body and nothing else.
      Otherwise a form field wraps, in order: the label (or an empty element when no
      label is displayed), the description (only with a displayed label and a
      non-null description element), the body, the errors element and the help
      element. `required` and `displayLabel` take their default values when undefined. */
  function DefaultTemplate(tp: TemplateProps, children: Node): (r: Node)
    ensures tp.hidden ==> r == children
    ensures !tp.hidden ==>
              && r.FormField?
              && r.id == tp.id && r.className == tp.classNames && r.error == tp.containsErrors
              && r.required == (if tp.required == Undefined then Bool(false) else tp.required)
              && |r.children| == 5
              && r.children[2..] == [children, tp.errors, tp.help]
              && (r.children[0] != Div <==> tp.displayLabel == Undefined || Truthy(tp.displayLabel))
              && (r.children[0] != Div ==> r.children[0] == LabelElem(tp.id, tp.labelText))
              && (r.children[1] != Nothing <==>
                    (tp.displayLabel == Undefined || Truthy(tp.displayLabel)) && tp.description != Nothing)
              && (r.children[1] != Nothing ==> r.children[1] == tp.description)
  {
    if tp.hidden then children
    else
      var displayLabel := if tp.displayLabel == Undefined then Bool(true) else tp.displayLabel;
      var required := if tp.required == Undefined then Bool(false) else tp.required;
      var labelNode := if Truthy(displayLabel) then LabelElem(tp.id, tp.labelText) else Div;
      var descriptionNode := if Truthy(displayLabel) && tp.description != Nothing then tp.description else Nothing;
      FormField(tp.id, tp.classNames, required, tp.containsErrors,
                [labelNode, descriptionNode, children, tp.errors, tp.help])
  }

  /** A hidden field's output depends on its body alone: two template inputs that
      are both hidden give the same output for the same body, whatever their labels,
      descriptions, errors and help. */
  lemma HiddenIgnoresChrome(tp: TemplateProps, tp': TemplateProps, children: Node)
    requires tp.hidden && tp'.hidden
    ensures DefaultTemplate(tp, children) == DefaultTemplate(tp', children) == children
  {
  }

  /** Evaluating one element: the inner components render, everything else is already
      final (field bodies are opaque here). */
  function MountElement(n: Node): Completion<Node> {
    match n
    case HelpElem(help) => Normal(Help(help))
    case ErrorListElem(errors) => ErrorList(errors)
    case _ => Normal(n)
  }

  /** Evaluating the elements of a list in order; the first one that throws aborts. */
  function MountAll(ns: seq<Node>): (r: Completion<seq<Node>>)
    ensures r.Normal? <==> forall i | 0 <= i < |ns| :: MountElement(ns[i]).Normal?
    ensures r.Normal? ==> |r.value| == |ns| && forall i | 0 <= i < |ns| :: r.value[i] == MountElement(ns[i]).value
  {
    if |ns| == 0 then Normal([])
    else
      match MountElement(ns[0])
      case Throw(reason) => Throw(reason)
      case Normal(first) =>
        match MountAll(ns[1..])
        case Throw(reason) => Throw(reason)
        case Normal(others) => Normal([first] + others)
  }

  /** Evaluating a template's output: a form field evaluates its children, and any
      other element is evaluated on its own. */
  function Mount(n: Node): Completion<Node> {
    match n
    case FormField(id, className, required, error, children) =>
      (match MountAll(children)
       case Throw(reason) => Throw(reason)
       case Normal(mounted) => Normal(FormField(id, className, required, error, mounted)))
    case _ => MountElement(n)
  }

  /** A five-part form field (the template's shape) whose parts all evaluate
      evaluates to the form field of their results, part by part. */
  lemma MountFormField(n: Node)
    requires n.FormField? && |n.children| == 5
    requires MountElement(n.children[0]).Normal? && MountElement(n.children[1]).Normal?
    requires MountElement(n.children[2]).Normal? && MountElement(n.children[3]).Normal?
    requires MountElement(n.children[4]).Normal?
    ensures Mount(n).Normal? && Mount(n).value.FormField?
    ensures |Mount(n).value.children| == 5
    ensures forall i | 0 <= i < 5 :: Mount(n).value.children[i] == MountElement(n.children[i]).value
  {
    assert forall i | 0 <= i < 5 :: MountElement(n.children[i]).Normal?;
  }

  /** Once evaluated, a displayed field whose help is falsy and whose error list is
      absent or empty shows the neutral empty element in both places and does not fail;
      a hidden field never evaluates its error list, so even a malformed one cannot make
      it fail. */
  lemma MountedTemplate(tp: TemplateProps, children: Node)
    requires children.FieldElem?
    requires tp.help.HelpElem? && tp.errors.ErrorListElem?
    ensures tp.hidden ==> Mount(DefaultTemplate(tp, children)) == Normal(children)
    ensures !tp.hidden && !Truthy(tp.help.help) && (tp.errors.errors == Undefined || tp.errors.errors == Arr([]))
            && MountElement(DefaultTemplate(tp, children).children[1]).Normal? ==>
              var m := Mount(DefaultTemplate(tp, children));
              m.Normal? && m.value.children[3] == Div && m.value.children[4] == Div
  {
    if !tp.hidden {
      var r := DefaultTemplate(tp, children);
      assert r.children[0].LabelElem? || r.children[0] == Div;
      assert MountElement(r.children[0]).Normal?;
      assert MountElement(r.children[2]).Normal?;
      if !Truthy(tp.help.help) && (tp.errors.errors == Undefined || tp.errors.errors == Arr([]))
         && MountElement(r.children[1]).Normal? {
        assert MountElement(r.children[3]) == Normal(Div) && MountElement(r.children[4]) == Normal(Div);
        MountFormField(r);
      }
    }
  }
}
